=== FILE: README.md ===
# Onboarding and session gate of the wallet demo app, in Dafny

This project models the app's own logic, which sits around the embedded-wallet SDK:

- **Onboarding screen** (`components/OnboardingScreen.tsx`). A questionnaire over a fixed, non-empty question list. It keeps three pieces of state: the current question index, an answer map from question id to a single option or an ordered selection, and a `loading` flag. An option press either replaces a single choice or toggles a multiple choice, with an optional cap on the selection. The Next button is gated by `canProceed`. On the last question, Complete writes the answers and the completion flag to the device store. It calls `onComplete` only if both writes succeed.
- **Root screen** (`app/index.tsx`). It picks the spinner, login, onboarding or dashboard view. Its status check clears both store keys whenever a user is present. With no user, it reads the stored flag, and a storage error counts as "not completed". Its completion callback sets the flag.
- **Dashboard** (`components/UserScreen.tsx`). Its pure helpers are: question titles with the "Question <id>" fallback, the answer text joined with ", ", the two-chain switch, the `0x` hex chain id, the wallet-address abbreviation, and the wallet button's disabled state. Its stateful handlers are loading the saved answers and the "Reset Onboarding" button.

The device store (AsyncStorage) is the class `Storage.KeyValueStore`. It holds a map from keys to stored values and a fixed set of keys whose I/O fails. Failure is explicit in this model, not nondeterministic. The JSON text of the answer map is abstracted: the store holds the map itself (`AnswerDoc`). Each component is a class whose methods are single atomic steps. Each method's `ensures` ties the new state to a pure function, and the properties are proved about those functions.

Behaviour of the code worth knowing:

- Each chain of awaited store calls inside one `try` stops at the first failure, and the calls before it keep their effect. So the two completion writes are not atomic: if the flag write fails, the answers document written just before it stays in the store (`Onboarding.SaveAnswers`). Likewise a failing first removal leaves the second key in place (`Dashboard.ResetStore`, `SessionGate.CheckStatus`).
- The status check runs on every change of the user, logout included, not only on login. With a user it always clears both keys, and with no user it reads the flag (`SessionGate.CheckStatus`).
- Only the first status check runs with `loading` set. Later checks, after the user changes, run while the previous flag is still shown (see "Left out").

## Model

| member | source | states |
|---|---|---|
| `Answers.Without` | components/OnboardingScreen.tsx:35 | `filter(a => a !== x)` removes every `x` and keeps exactly the other elements; the list is unchanged when `x` is absent |
| `Answers.WithoutCounts` | components/OnboardingScreen.tsx:35 | the filter drops exactly the occurrences of `x`: every other option keeps its number of occurrences |
| `Answers.WithoutDistinct` | components/OnboardingScreen.tsx:33-35 | removing a present option from a duplicate-free selection keeps it duplicate-free and shortens it by exactly one |
| `Answers.AppendDistinct` | components/OnboardingScreen.tsx:42 | appending an option that is not selected keeps the selection duplicate-free |
| `Storage.FirstFailure` | app/index.tsx:19-35 | the position where a chain of awaited calls stops: every key before it works, and the key at it fails |
| `Storage.RemoveInOrder` | app/index.tsx:19-35 | a chain of awaited removals in one `try` succeeds iff no key fails. Every key before the first failing one is gone. With distinct keys, the failing key and every key after it keep their values. Keys outside the chain are untouched |
| `Storage.WriteInOrder` | components/OnboardingScreen.tsx:87-95 | a chain of awaited writes in one `try` succeeds iff no key fails. With distinct keys, every write before the first failing one has landed, and the failing key and every key after it keep their old values. Keys outside the chain and failing keys are untouched |
| `Storage.KeyValueStore.GetItem` | app/index.tsx:27 | a read returns the stored value, absent for an unset key, or an error for a failing key |
| `Storage.KeyValueStore.SetItem` | components/OnboardingScreen.tsx:89-90 | a write succeeds iff its key does not fail; on success the key holds the value, on failure nothing changes |
| `Storage.KeyValueStore.RemoveItem` | app/index.tsx:22-23 | a removal succeeds iff its key does not fail; on success the key is gone, on failure nothing changes |
| `Numerals.ToDigits` | components/UserScreen.tsx:71 | `toString(base)` yields a non-empty string of digits of that base with no leading zero; 0 is exactly "0" |
| `Numerals.FromToDigits` | components/UserScreen.tsx:71 | reading back the digits of a number gives the number |
| `Numerals.DecimalString` | components/UserScreen.tsx:211 | the text of `${questionId}`: a leading '-' exactly for a negative id, then a non-empty run of decimal digits with no leading zero; 0 is exactly "0" |
| `Numerals.DecimalRoundTrip` | components/UserScreen.tsx:211 | the decimal text of an integer, sign included, reads back as that integer |
| `Numerals.DecimalInjective` | components/UserScreen.tsx:211 | two integers with the same decimal text are equal |
| `Onboarding.Occurs` | components/OnboardingScreen.tsx:54 | `String.prototype.includes`: true iff the option occurs in the string at some position |
| `Onboarding.IsAnswerSelected` | components/OnboardingScreen.tsx:49-57 | an option counts as selected only when the question has a stored answer. Single choice: iff the stored answer is exactly that option. Multiple choice: iff the stored array contains it, or, for a stored string, iff it occurs in that string |
| `Onboarding.CanProceed` | components/OnboardingScreen.tsx:59-69 | an optional question never blocks. A required single-choice question needs a stored answer other than the empty string. A required multiple-choice question needs a stored non-empty array |
| `Onboarding.CurrentSelection` | components/OnboardingScreen.tsx:30 | `answers[id] \|\| []` holds exactly the options `isAnswerSelected` reports, without duplicates and within the cap |
| `Onboarding.ApplyAnswer` | components/OnboardingScreen.tsx:26-47 | single choice: afterwards exactly the pressed option is selected. Multiple choice: a selected option is deselected, an unselected one becomes selected, and the Selection Limit alert happens iff the cap is truthy and reached by an unselected press. Other question ids are untouched and the answer still fits its question |
| `Onboarding.AppendsAtEnd` | components/OnboardingScreen.tsx:42 | a newly selected option is appended at the end of the selection |
| `Onboarding.ToggleTwiceRestores` | components/OnboardingScreen.tsx:33-45 | pressing the same multiple-choice option twice restores the set of selected options, every other answer, and `canProceed` |
| `Onboarding.ProceedMeansSelected` | components/OnboardingScreen.tsx:49-69 | for a required question `canProceed` holds iff some option is selected. For single choice, that option must be non-empty |
| `Onboarding.AnswerUnlocksNext` | components/OnboardingScreen.tsx:59-69 | selecting a non-empty option makes `canProceed` true |
| `Onboarding.AnswerKeepsAllFitting` | components/OnboardingScreen.tsx:26-47 | with unique question ids, answering the current question keeps every question's answer of the right kind, duplicate-free and within its cap |
| `Onboarding.SaveAnswers` | components/OnboardingScreen.tsx:85-98 | completion succeeds iff both keys can be written. If the answers key fails, the store is unchanged. If it works, the answers document is stored even when the flag write then fails. On success the flag is `"true"`; on failure it is unchanged. Other keys are untouched |
| `Onboarding.OnboardingScreen.constructor` | components/OnboardingScreen.tsx:20-22 | the screen starts on the first question with no answers and not loading |
| `Onboarding.OnboardingScreen.Progress` | components/OnboardingScreen.tsx:100-113 | the progress text shows the current index plus one out of N. That number lies between 1 and N and equals N exactly on the last question |
| `Onboarding.OnboardingScreen.NextEnabled` | components/OnboardingScreen.tsx:168 | the Next/Complete button is disabled while saving. Otherwise it is enabled for an optional question, and for a required one iff some option is selected (a non-empty one for single choice) |
| `Onboarding.OnboardingScreen.HandleAnswer` | components/OnboardingScreen.tsx:26-47 | only the answers change, as `ApplyAnswer` says; the alert is raised exactly when the cap rejects the press; the screen invariant is kept |
| `Onboarding.OnboardingScreen.HandlePrevious` | components/OnboardingScreen.tsx:79-83 | the index goes down by one when above 0 and otherwise stays. The answers are not touched |
| `Onboarding.OnboardingScreen.HandleComplete` | components/OnboardingScreen.tsx:85-98 | the store changes as `SaveAnswers` says, `onComplete` is called iff both writes succeed, `loading` ends false, and answers and index stay |
| `Onboarding.OnboardingScreen.HandleNext` | components/OnboardingScreen.tsx:71-77 | before the last question the index goes up by one and nothing else changes. On the last question, completion runs and the index stays. The answers never change |
| `Onboarding.OnboardingScreen.PressNext` | components/OnboardingScreen.tsx:161-173 | a press while `canProceed` is false or saving is in progress changes nothing. Otherwise it behaves as `handleNext` |
| `Onboarding.OnboardingScreen.PressPrevious` | components/OnboardingScreen.tsx:151-159 | the Previous button moves back only after the first question and not while saving |
| `Dashboard.GetQuestionText` | components/UserScreen.tsx:202-212 | ids 1 to 6 get their fixed titles; any other id gets "Question " followed by exactly the canonical decimal text of the id, which reads back as the id |
| `Dashboard.QuestionTextInjective` | components/UserScreen.tsx:202-212 | different question ids never get the same title |
| `Dashboard.JoinWithComma` | components/UserScreen.tsx:100 | `join(', ')` gives the empty text for no options, and otherwise text that starts with the first option, ends with the last, and is as long as the options plus two characters per separator; with `JoinSplitRoundTrip` this fixes the separator as ", " |
| `Dashboard.DisplayAnswer` | components/UserScreen.tsx:100 | a single choice is shown unchanged; a selection is shown as its `JoinWithComma` text, so a one-option selection is that option and an empty one is the empty text |
| `Dashboard.JoinSplitRoundTrip` | components/UserScreen.tsx:100 | `join(', ')` of comma-free options splits back into the same options in order |
| `Dashboard.DisplayedSelectionSplitsBack` | components/UserScreen.tsx:100 | the profile text of a non-empty selection of comma-free options names exactly those options in order |
| `Dashboard.LoadedAnswers` | components/UserScreen.tsx:24-33 | a readable document stored under `onboardingAnswers` is loaded. A failing read or an unset key leaves the shown answers as they were. The shown answers change only to a document actually stored there |
| `Dashboard.ResetStore` | components/UserScreen.tsx:182-191 | the reset succeeds iff both keys can be removed, and then both are gone. If the answers key fails, the store is unchanged and the flag stays. If it works, the answers are gone even when the flag removal then fails. A failing flag key keeps its value. Other keys are untouched |
| `Dashboard.NextChain` | components/UserScreen.tsx:169-171 | the switch target is one of the two known chains and differs from the current chain. It is 84532 exactly when the current chain is 11155111 |
| `Dashboard.SwitchButtonTitle` | components/UserScreen.tsx:169 | the title is "Switch to " followed by a known chain id other than the current one |
| `Dashboard.SwitchTwiceReturns` | components/UserScreen.tsx:171 | switching twice from either known chain returns to it |
| `Dashboard.ChainIdHex` | components/UserScreen.tsx:71 | the parameter is "0x" followed by lowercase hex digits whose value equals the decimal chain id, with no leading zero; an id of value 0 gives exactly "0x0" |
| `Dashboard.KnownChainHex` | components/UserScreen.tsx:71 | 84532 becomes "0x14a34" and 11155111 becomes "0xaa36a7" |
| `Dashboard.AbbreviateAddress` | components/UserScreen.tsx:130 | the label is the first min(6, n) characters, "...", then the last min(4, n) characters (the whole address when it is shorter than 4) |
| `Dashboard.AbbreviationOfFullAddress` | components/UserScreen.tsx:130 | an address of at least 10 characters gets a 13-character label that keeps its first 6 and last 4 characters |
| `Dashboard.WalletButtonDisabled` | components/UserScreen.tsx:131 | a wallet's button is disabled iff there is an active wallet and its address is this wallet's address |
| `Dashboard.OneDisabledButton` | components/UserScreen.tsx:131 | with distinct addresses, exactly one wallet button is disabled when the active wallet is listed, and none otherwise |
| `Dashboard.UserScreen.constructor` | components/UserScreen.tsx:7-9 | the dashboard starts on chain 84532 with no answers shown |
| `Dashboard.UserScreen.LoadOnboardingAnswers` | components/UserScreen.tsx:24-33 | the shown answers become what `LoadedAnswers` says: the stored document, or unchanged on an absent key or a read error |
| `Dashboard.UserScreen.ResetOnboarding` | components/UserScreen.tsx:182-191 | the store changes as `ResetStore` says. The shown answers become null only when both removals succeed, and are otherwise untouched |
| `Dashboard.UserScreen.PressSwitchChain` | components/UserScreen.tsx:168-174 | the screen moves to the chain the button title named before the press |
| `SessionGate.SelectView` | app/index.tsx:46-72 | spinner iff loading. Otherwise login iff there is no user, onboarding iff there is a user and the flag is not `true` (false or null), and the dashboard iff there is a user and the flag is `true` |
| `SessionGate.CheckStatus` | app/index.tsx:18-36 | with a user the flag is false. The flag key is removed first: if it fails, the store is unchanged; if it works, it is gone, and both keys are gone when the answers key works too. A failing answers key keeps its value. Without a user, the flag is true iff the stored flag is exactly "true" and the read succeeded, and the store is unchanged. No other key changes |
| `SessionGate.LoginForcesOnboarding` | app/index.tsx:20-24 | after a status check with a user the view is onboarding. The dashboard would then load no stale answers, unless the flag removal fails while the answers key works: the chain then stops before the answers are removed |
| `SessionGate.SavedAnswersLoadBack` | components/OnboardingScreen.tsx:89 | the answers saved by a successful completion are exactly what the dashboard loads |
| `SessionGate.SavedFlagReadsBack` | app/index.tsx:26-28 | after a successful completion, a status check without a user reads onboarding as completed |
| `SessionGate.ResetClearsFlag` | components/UserScreen.tsx:182-191 | after a successful reset, a status check without a user reads onboarding as not completed |
| `SessionGate.Index.constructor` | app/index.tsx:11-12 | the root starts with the flag null and loading |
| `SessionGate.Index.View` | app/index.tsx:46-72 | the root renders the spinner iff loading, otherwise login without a user, onboarding with a user and a flag that is not `true`, and the dashboard with a user and the flag `true` |
| `SessionGate.Index.CheckOnboardingStatus` | app/index.tsx:18-36 | the flag and the store change as `CheckStatus` says, and `loading` is false afterwards |
| `SessionGate.Index.HandleOnboardingComplete` | app/index.tsx:38-40 | only the flag changes, to true; with a user and not loading the view is the dashboard |
| `SessionGate.PressNextWithCallback` | app/index.tsx:67-69 | Complete on the last question, when enabled and both writes succeed, shows the dashboard, and the dashboard then loads these answers. Otherwise the root is untouched |

## Left out

- `components/LoginScreen.tsx` is not part of this model. It only calls the SDK's OAuth and guest login.
- `components/Chart.tsx` is not part of this model. It is driven by `Math.random`, floating-point arithmetic and timers.
- The SDK calls in `components/UserScreen.tsx` are calls into code that is not visible here: `signMessage`, the `wallet_switchEthereumChain` request itself, `createWallet`, `setActiveWallet`, logout, and the `useOpenfort`/`useUser`/`useWallets` hooks. The signed-in user is a boolean parameter, and the active wallet is an optional address.
- `JSON.stringify`/`JSON.parse` of the answer map are abstracted. The store holds the map as an `AnswerDoc` value.
- `Dashboard.LoadedAnswers`: text stored under `onboardingAnswers` is treated as a failed parse and leaves the shown answers unchanged. The app itself only ever stores a document there.
- The order in which `Object.entries` lists the profile rows is not modelled. Each row is modelled by `GetQuestionText` and `DisplayAnswer`.
- The floating-point percentage of the progress bar is replaced by the integer pair (i+1, N).
- Asynchronous interleaving, React re-renders, stale closures (`answers` versus `prev` in `handleAnswer`) and `useEffect` scheduling are not modelled. Each handler is one atomic step.
- Because each handler is one atomic step, the onboarding screen's `loading` is never observed as true between steps. The window in which a re-run status check shows the previous flag is not modelled.
- Store failures: each key either always works or always fails. A failed write or removal is assumed to change nothing.
- `Onboarding.ApplyAnswer` requires the stored answer to have the kind of its question. This holds whenever question ids are unique. The JavaScript behaviour on a mismatched stored string (a `filter` on a string, or spreading its characters) is not modelled.
- `Onboarding.Question`: `maxSelections` is a natural number, so a negative cap is not modelled.
- `Dashboard.ChainIdHex` requires the chain id to consist of decimal digits. Only the two literal chain ids reach it. `Number` of other text (NaN, whitespace, exponents) and the loss of precision above 2^53 are not modelled.
- `Dashboard.GetQuestionText` takes an integer id. The `NaN` that `parseInt` gives for a non-numeric key is not modelled. `String(id)` is modelled as plain decimal digits, which matches JavaScript only for magnitudes below 2^53; the exponent notation used from 1e21 on is not modelled.
- Alerts and console logging are not modelled. The Selection Limit alert is the `limitAlert` result, and the "completion failed" alert is a `false` result.

=== FILE: answers.dfy ===
/** Answer values of the onboarding questionnaire, shared by the onboarding
    screen, the persisted store and the dashboard. */
module Answers {

  datatype Option<+T> = None | Some(value: T)

  /** What the questionnaire records for one question: the chosen option of a
      single-choice question, or the ordered list of selected options of a
      multiple-choice question (`string | string[]`). */
  datatype Answer = Single(choice: string) | Multiple(selection: seq<string>)

  /** Answers keyed by question id (`Record<number, string | string[]>`). */
  type AnswerMap = map<int, Answer>

  /** The value stored under a key, or `None` when the key is absent. */
  function Lookup<K, V>(m: map<K, V>, key: K): Option<V>
  {
    if key in m then Some(m[key]) else None
  }

  /** No option appears twice in a selection list. */
  predicate NoDuplicates(s: seq<string>)
  {
    forall i, j :: 0 <= i < j < |s| ==> s[i] != s[j]
  }

  /** `s.filter(a => a !== x)`: every occurrence of `x` is dropped and every
      other element keeps its number of occurrences. */
  function Without(s: seq<string>, x: string): (r: seq<string>)
    ensures x !in r
    ensures forall y :: y != x ==> (y in r <==> y in s)
    ensures x !in s ==> r == s
    ensures |r| <= |s|
  {
    if s == [] then []
    else if s[0] == x then Without(s[1..], x)
    else [s[0]] + Without(s[1..], x)
  }

  /** Filtering drops exactly the occurrences of `x`: every other element
      keeps its number of occurrences. */
  lemma {:induction false} WithoutCounts(s: seq<string>, x: string)
    ensures multiset(Without(s, x)) == multiset(s)[x := 0]
  {
    if s != [] {
      assert s == [s[0]] + s[1..];
      WithoutCounts(s[1..], x);
    }
  }

  /** The tail of a list without duplicates has none either and does not
      contain the head. */
  lemma NoDuplicatesTail(s: seq<string>)
    requires NoDuplicates(s) && s != []
    ensures NoDuplicates(s[1..]) && s[0] !in s[1..]
  {
    var tail := s[1..];
    forall i, j | 0 <= i < j < |tail| ensures tail[i] != tail[j] {
      assert tail[i] == s[i + 1] && tail[j] == s[j + 1];
    }
    forall j | 0 <= j < |tail| ensures tail[j] != s[0] {
      assert tail[j] == s[j + 1];
    }
  }

  /** Removing an option from a list without duplicates keeps it without
      duplicates and, when the option was there, shortens it by exactly one. */
  lemma {:induction false} WithoutDistinct(s: seq<string>, x: string)
    requires NoDuplicates(s)
    ensures NoDuplicates(Without(s, x))
    ensures x in s ==> |Without(s, x)| == |s| - 1
  {
    if s != [] {
      var tail := s[1..];
      NoDuplicatesTail(s);
      WithoutDistinct(tail, x);
      if s[0] == x {
        assert Without(s, x) == tail;
      } else {
        var w := Without(tail, x);
        assert Without(s, x) == [s[0]] + w;
        assert s[0] !in w;
        forall i, j | 0 <= i < j < |[s[0]] + w| ensures ([s[0]] + w)[i] != ([s[0]] + w)[j] {
          if i == 0 {
            assert ([s[0]] + w)[j] == w[j - 1];
          } else {
            assert ([s[0]] + w)[i] == w[i - 1] && ([s[0]] + w)[j] == w[j - 1];
          }
        }
        if x in s {
          assert x in tail;
        }
      }
    }
  }

  /** Appending an option that is not yet present keeps a list free of
      duplicates. */
  lemma AppendDistinct(s: seq<string>, x: string)
    requires NoDuplicates(s) && x !in s
    ensures NoDuplicates(s + [x])
  {
    forall i, j | 0 <= i < j < |s + [x]| ensures (s + [x])[i] != (s + [x])[j] {
      if j == |s| {
        assert (s + [x])[i] == s[i];
      } else {
        assert (s + [x])[i] == s[i] && (s + [x])[j] == s[j];
      }
    }
  }
}

=== FILE: numerals.dfy ===
/** Digit strings for JavaScript's `Number.prototype.toString(base)` on
    integers and for reading such strings back. Digits above 9 are the
    lowercase letters `a` to `f`. */
module Numerals {

  predicate ValidBase(base: nat)
  {
    2 <= base <= 16
  }

  function DigitChar(d: nat): (c: char)
    requires d < 16
  {
    if d < 10 then ('0' as int + d) as char else ('a' as int + d - 10) as char
  }

  function DigitValue(c: char): nat
  {
    if '0' <= c <= '9' then c as int - '0' as int
    else if 'a' <= c <= 'f' then c as int - 'a' as int + 10
    else 0
  }

  /** `c` is a digit of `base`: a decimal digit or a lowercase letter a-f,
      whose value is below the base. */
  predicate IsDigit(c: char, base: nat)
  {
    ('0' <= c <= '9' || 'a' <= c <= 'f') && DigitValue(c) < base
  }

  predicate AllDigits(s: string, base: nat)
  {
    forall i :: 0 <= i < |s| ==> IsDigit(s[i], base)
  }

  lemma DigitRoundTrip(d: nat, base: nat)
    requires d < base <= 16
    ensures IsDigit(DigitChar(d), base) && DigitValue(DigitChar(d)) == d
  {
  }

  lemma DivModBase(n: nat, base: nat)
    requires ValidBase(base)
    ensures (n / base) * base + n % base == n && 0 <= n % base < base
    ensures n >= base ==> 1 <= n / base < n
  {
  }

  /** `n.toString(base)` for a non-negative integer: the shortest digit
      string, so it never starts with `0` unless it is `"0"`. */
  function ToDigits(n: nat, base: nat): (s: string)
    requires ValidBase(base)
    ensures |s| > 0 && AllDigits(s, base)
    ensures s[0] == '0' ==> n == 0
    ensures s[0] == '0' ==> s == "0"
    decreases n
  {
    DigitRoundTrip(n % base, base);
    DivModBase(n, base);
    if n < base then [DigitChar(n)]
    else ToDigits(n / base, base) + [DigitChar(n % base)]
  }

  /** The value of a digit string, most significant digit first. */
  function FromDigits(s: string, base: nat): nat
    requires ValidBase(base)
    decreases |s|
  {
    if s == [] then 0
    else FromDigits(s[..|s| - 1], base) * base + DigitValue(s[|s| - 1])
  }

  /** Reading back the digits of `n` gives `n`. */
  lemma {:induction false} FromToDigits(n: nat, base: nat)
    requires ValidBase(base)
    ensures FromDigits(ToDigits(n, base), base) == n
    decreases n
  {
    DigitRoundTrip(n % base, base);
    DivModBase(n, base);
    if n >= base {
      var prefix := ToDigits(n / base, base);
      var s := ToDigits(n, base);
      assert s == prefix + [DigitChar(n % base)];
      assert s[..|s| - 1] == prefix;
      FromToDigits(n / base, base);
      assert FromDigits(s, base) == (n / base) * base + n % base;
    }
  }

  /** `String(n)` for an integer of magnitude below 2^53: a minus sign for a
      negative value, then the decimal digits. Larger magnitudes are not
      exact in JavaScript and are not covered. */
  function DecimalString(n: int): (s: string)
    ensures |s| > 0 && (s[0] == '-' <==> n < 0)
    ensures var digits := if n < 0 then s[1..] else s;
      && |digits| > 0 && AllDigits(digits, 10)
      && (digits[0] == '0' ==> n == 0)
      && (digits[0] == '0' ==> digits == "0")
  {
    if n < 0 then
      assert ('-' as char) != '0' && !IsDigit('-', 10);
      assert ("-" + ToDigits(-n, 10))[1..] == ToDigits(-n, 10);
      "-" + ToDigits(-n, 10)
    else
      assert IsDigit(ToDigits(n, 10)[0], 10);
      ToDigits(n, 10)
  }

  /** Reads a string produced by `DecimalString`. */
  function ParseDecimal(s: string): int
  {
    if |s| > 0 && s[0] == '-' then 0 - FromDigits(s[1..], 10) else FromDigits(s, 10)
  }

  lemma DecimalRoundTrip(n: int)
    ensures ParseDecimal(DecimalString(n)) == n
  {
    if n < 0 {
      FromToDigits(-n, 10);
      assert DecimalString(n)[1..] == ToDigits(-n, 10);
    } else {
      FromToDigits(n, 10);
      assert DecimalString(n)[0] != '-';
    }
  }

  /** Two integers with the same decimal text are equal. */
  lemma DecimalInjective(a: int, b: int)
    requires DecimalString(a) == DecimalString(b)
    ensures a == b
  {
    DecimalRoundTrip(a);
    DecimalRoundTrip(b);
  }
}

=== FILE: onboarding.dfy ===
/** The onboarding questionnaire screen (components/OnboardingScreen.tsx): a
    linear walk over a fixed, non-empty list of questions that collects one
    answer per question id and persists them when the last question is done. */
module Onboarding {
  import opened Answers
  import opened Storage

  datatype Kind = SingleChoice | MultipleChoice

  datatype Question = Question(
    id: int,
    text: string,
    kind: Kind,
    options: seq<string>,
    required: bool,
    maxSelections: Option<nat>)

  /** `maxSelections` caps a selection only when it is truthy: absent or 0
      means no cap. */
  predicate Capped(q: Question)
  {
    q.maxSelections.Some? && q.maxSelections.value > 0
  }

  /** The question list identifies each question by its id. */
  predicate UniqueIds(questions: seq<Question>)
  {
    forall i, j :: 0 <= i < j < |questions| ==> questions[i].id != questions[j].id
  }

  /** An answer the screen can have produced for `q`: the kind matches, and a
      selection has no repeated option and respects the cap. */
  predicate Fits(q: Question, a: Answer)
  {
    match q.kind
    case SingleChoice => a.Single?
    case MultipleChoice =>
      a.Multiple? && NoDuplicates(a.selection) &&
      (Capped(q) ==> |a.selection| <= q.maxSelections.value)
  }

  predicate AnswerFits(q: Question, answers: AnswerMap)
  {
    q.id in answers ==> Fits(q, answers[q.id])
  }

  predicate AnswersFit(questions: seq<Question>, answers: AnswerMap)
  {
    forall k :: 0 <= k < |questions| ==> AnswerFits(questions[k], answers)
  }

  /** `sub` occurs in `s` starting at position `i`. */
  predicate OccursAt(sub: string, s: string, i: nat)
  {
    i + |sub| <= |s| && s[i..i + |sub|] == sub
  }

  /** When `sub` is not a prefix of a non-empty `s`, it occurs in `s` exactly
      when it occurs in `s` without its first character. */
  lemma OccursInTail(sub: string, s: string)
    requires |s| > 0 && !(sub <= s)
    ensures (exists i :: OccursAt(sub, s, i)) <==> (exists i :: OccursAt(sub, s[1..], i))
  {
    if i: nat :| OccursAt(sub, s, i) {
      assert i != 0;
      assert s[1..][i - 1..i - 1 + |sub|] == s[i..i + |sub|];
      assert OccursAt(sub, s[1..], i - 1);
    }
    if i: nat :| OccursAt(sub, s[1..], i) {
      assert s[1..][i..i + |sub|] == s[i + 1..i + 1 + |sub|];
      assert OccursAt(sub, s, i + 1);
    }
  }

  /** JavaScript's `String.prototype.includes`: `sub` occurs in `s`. */
  function Occurs(sub: string, s: string): (found: bool)
    ensures found <==> exists i :: OccursAt(sub, s, i)
    decreases |s|
  {
    if sub <= s then
      assert OccursAt(sub, s, 0);
      true
    else if |s| == 0 then false
    else
      OccursInTail(sub, s);
      Occurs(sub, s[1..])
  }

  /** `isAnswerSelected(option)`: strict equality for a single-choice
      question, `includes` on the stored answer for a multiple-choice one. */
  function IsAnswerSelected(q: Question, answers: AnswerMap, option: string): (selected: bool)
    ensures selected ==> q.id in answers
    ensures q.kind == SingleChoice ==> (selected <==> Lookup(answers, q.id) == Some(Single(option)))
    ensures q.kind == MultipleChoice && q.id in answers && answers[q.id].Multiple? ==>
      (selected <==> option in answers[q.id].selection)
    ensures q.kind == MultipleChoice && q.id in answers && answers[q.id].Single? ==>
      (selected <==> exists i :: OccursAt(option, answers[q.id].choice, i))
  {
    match Lookup<int, Answer>(answers, q.id)
    case None => false
    case Some(Single(s)) =>
      if q.kind == SingleChoice then s == option else Occurs(option, s)
    case Some(Multiple(sel)) =>
      q.kind == MultipleChoice && option in sel
  }

  /** `canProceed()`: an optional question never blocks; a required
      single-choice question needs a truthy answer (an array is truthy, an
      empty string is not); a required multiple-choice question needs a
      non-empty array. */
  function CanProceed(q: Question, answers: AnswerMap): (proceed: bool)
    ensures !q.required ==> proceed
    ensures q.required && q.kind == SingleChoice ==>
      (proceed <==> q.id in answers && answers[q.id] != Single(""))
    ensures q.required && q.kind == MultipleChoice ==>
      (proceed <==> q.id in answers && answers[q.id].Multiple? && answers[q.id].selection != [])
  {
    if !q.required then true
    else
      match Lookup<int, Answer>(answers, q.id)
      case None => false
      case Some(Single(s)) => q.kind == SingleChoice && s != ""
      case Some(Multiple(sel)) => q.kind == SingleChoice || |sel| > 0
  }

  /** `(answers[q.id] as string[]) || []`: the options selected so far. */
  function CurrentSelection(q: Question, answers: AnswerMap): (sel: seq<string>)
    requires q.kind == MultipleChoice && AnswerFits(q, answers)
    ensures forall x :: x in sel <==> IsAnswerSelected(q, answers, x)
    ensures NoDuplicates(sel)
    ensures Capped(q) ==> |sel| <= q.maxSelections.value
  {
    if q.id in answers then answers[q.id].selection else []
  }

  /** Result of pressing an option: the new answers, or the "Selection Limit"
      alert with the answers left as they were. */
  datatype AnswerOutcome = Updated(answers: AnswerMap) | SelectionLimit(max: nat)

  /** `handleAnswer(option)` on question `q`. A single choice replaces the
      previous one. A multiple choice toggles: a selected option is removed,
      an unselected one is appended unless the cap is reached. */
  function ApplyAnswer(q: Question, answers: AnswerMap, option: string): (r: AnswerOutcome)
    requires AnswerFits(q, answers)
    ensures r.SelectionLimit? <==>
      q.kind == MultipleChoice && Capped(q) && !IsAnswerSelected(q, answers, option) &&
      |CurrentSelection(q, answers)| >= q.maxSelections.value
    ensures r.Updated? ==> AnswerFits(q, r.answers)
    ensures r.Updated? ==> forall id :: id != q.id ==> Lookup(r.answers, id) == Lookup(answers, id)
    ensures r.Updated? && q.kind == SingleChoice ==>
      forall x :: IsAnswerSelected(q, r.answers, x) <==> x == option
    ensures r.Updated? && q.kind == MultipleChoice ==>
      forall x :: IsAnswerSelected(q, r.answers, x) <==>
        if IsAnswerSelected(q, answers, option) then x != option && IsAnswerSelected(q, answers, x)
        else x == option || IsAnswerSelected(q, answers, x)
  {
    match q.kind
    case SingleChoice => Updated(answers[q.id := Single(option)])
    case MultipleChoice =>
      var current := CurrentSelection(q, answers);
      if option in current then
        WithoutDistinct(current, option);
        Updated(answers[q.id := Multiple(Without(current, option))])
      else if Capped(q) && |current| >= q.maxSelections.value then
        SelectionLimit(q.maxSelections.value)
      else
        AppendDistinct(current, option);
        Updated(answers[q.id := Multiple(current + [option])])
  }

  /** The answers after pressing an option, whichever way it went. */
  function AfterAnswer(q: Question, answers: AnswerMap, option: string): AnswerMap
    requires AnswerFits(q, answers)
  {
    match ApplyAnswer(q, answers, option)
    case Updated(m) => m
    case SelectionLimit(_) => answers
  }

  /** A newly selected option goes to the end of the selection. */
  lemma AppendsAtEnd(q: Question, answers: AnswerMap, option: string)
    requires AnswerFits(q, answers) && q.kind == MultipleChoice
    requires !IsAnswerSelected(q, answers, option)
    requires !Capped(q) || |CurrentSelection(q, answers)| < q.maxSelections.value
    ensures ApplyAnswer(q, answers, option) ==
      Updated(answers[q.id := Multiple(CurrentSelection(q, answers) + [option])])
  {
  }

  /** Pressing the same multiple-choice option twice leaves the same options
      selected as before, and every other question's answer as it was. */
  lemma {:induction false} ToggleTwiceRestores(q: Question, answers: AnswerMap, option: string)
    requires AnswerFits(q, answers) && q.kind == MultipleChoice
    ensures AnswerFits(q, AfterAnswer(q, answers, option))
    ensures var twice := AfterAnswer(q, AfterAnswer(q, answers, option), option);
      && (forall x :: IsAnswerSelected(q, twice, x) <==> IsAnswerSelected(q, answers, x))
      && (forall id :: id != q.id ==> Lookup(twice, id) == Lookup(answers, id))
      && CanProceed(q, twice) == CanProceed(q, answers)
  {
    var once := AfterAnswer(q, answers, option);
    var twice := AfterAnswer(q, once, option);
    var before := CurrentSelection(q, answers);
    if IsAnswerSelected(q, answers, option) {
      WithoutDistinct(before, option);
      assert once == answers[q.id := Multiple(Without(before, option))];
      assert CurrentSelection(q, once) == Without(before, option);
      assert ApplyAnswer(q, once, option).Updated?;
    }
  }

  /** For a required question, proceeding is possible exactly when some option
      counts as selected; for single choice the empty string does not count. */
  lemma ProceedMeansSelected(q: Question, answers: AnswerMap)
    requires AnswerFits(q, answers)
    ensures q.required && q.kind == SingleChoice ==>
      (CanProceed(q, answers) <==> exists x :: x != "" && IsAnswerSelected(q, answers, x))
    ensures q.required && q.kind == MultipleChoice ==>
      (CanProceed(q, answers) <==> exists x :: IsAnswerSelected(q, answers, x))
  {
    if q.required && CanProceed(q, answers) {
      match answers[q.id]
      case Single(s) =>
        assert IsAnswerSelected(q, answers, s);
      case Multiple(sel) =>
        assert IsAnswerSelected(q, answers, sel[0]);
    }
  }

  /** Answering a required question with a real option unlocks Next. */
  lemma AnswerUnlocksNext(q: Question, answers: AnswerMap, option: string)
    requires AnswerFits(q, answers) && option != ""
    requires !IsAnswerSelected(q, answers, option)
    requires ApplyAnswer(q, answers, option).Updated?
    ensures CanProceed(q, AfterAnswer(q, answers, option))
  {
  }

  /** Answering question `i` keeps every question's answer fitting it. */
  lemma AnswerKeepsAllFitting(questions: seq<Question>, i: nat, answers: AnswerMap, option: string)
    requires UniqueIds(questions) && i < |questions| && AnswersFit(questions, answers)
    ensures AnswersFit(questions, AfterAnswer(questions[i], answers, option))
  {
  }

  /** `handleComplete`'s two awaited writes: the serialised answers, then the
      completion flag. */
  function SaveAnswers(items: Items, faulty: set<string>, answers: AnswerMap): (r: (bool, Items))
    ensures r.0 <==> AnswersKey !in faulty && CompletedKey !in faulty
    ensures r.0 ==> Lookup(r.1, AnswersKey) == Some(AnswerDoc(answers))
    ensures AnswersKey in faulty ==> r.1 == items
    ensures AnswersKey !in faulty ==> Lookup(r.1, AnswersKey) == Some(AnswerDoc(answers))
    ensures r.0 ==> Lookup(r.1, CompletedKey) == Some(Text(CompletedFlag))
    ensures !r.0 ==> Lookup(r.1, CompletedKey) == Lookup(items, CompletedKey)
    ensures forall k :: k != AnswersKey && k != CompletedKey ==> Lookup(r.1, k) == Lookup(items, k)
  {
    var writes := [(AnswersKey, AnswerDoc(answers)), (CompletedKey, Text(CompletedFlag))];
    assert writes[0].0 != writes[1].0;
    WriteInOrder(items, faulty, writes)
  }

  /** The onboarding screen's component state. */
  class OnboardingScreen {
    const questions: seq<Question>
    var currentQuestionIndex: nat
    var answers: AnswerMap
    var loading: bool

    ghost predicate Valid()
      reads this
    {
      && 0 < |questions|
      && UniqueIds(questions)
      && currentQuestionIndex < |questions|
      && AnswersFit(questions, answers)
    }

    function CurrentQuestion(): Question
      reads this
      requires Valid()
    {
      questions[currentQuestionIndex]
    }

    constructor (questions: seq<Question>)
      requires 0 < |questions| && UniqueIds(questions)
      ensures Valid()
      ensures this.questions == questions
      ensures currentQuestionIndex == 0 && answers == map[] && !loading
    {
      this.questions := questions;
      currentQuestionIndex := 0;
      answers := map[];
      loading := false;
    }

    /** The progress text "`shown` of `total`". */
    function Progress(): (r: (nat, nat))
      reads this
      requires Valid()
      ensures r.0 == currentQuestionIndex + 1
      ensures 1 <= r.0 <= r.1 && r.1 == |questions|
      ensures r.0 == r.1 <==> currentQuestionIndex == |questions| - 1
    {
      (currentQuestionIndex + 1, |questions|)
    }

    /** The Next/Complete button is enabled. */
    function NextEnabled(): (enabled: bool)
      reads this
      requires Valid()
      ensures enabled ==> !loading
      ensures !CurrentQuestion().required ==> (enabled <==> !loading)
      ensures CurrentQuestion().required && CurrentQuestion().kind == SingleChoice ==>
        (enabled <==> !loading && exists x :: x != "" && IsAnswerSelected(CurrentQuestion(), answers, x))
      ensures CurrentQuestion().required && CurrentQuestion().kind == MultipleChoice ==>
        (enabled <==> !loading && exists x :: IsAnswerSelected(CurrentQuestion(), answers, x))
    {
      assert AnswerFits(CurrentQuestion(), answers);
      ProceedMeansSelected(CurrentQuestion(), answers);
      CanProceed(CurrentQuestion(), answers) && !loading
    }

    /** `handleAnswer(option)`: only the current question's answer changes. */
    method HandleAnswer(option: string) returns (limitAlert: bool)
      requires Valid()
      modifies this`answers
      ensures Valid()
      ensures limitAlert == ApplyAnswer(CurrentQuestion(), old(answers), option).SelectionLimit?
      ensures answers == AfterAnswer(CurrentQuestion(), old(answers), option)
    {
      var q := questions[currentQuestionIndex];
      AnswerKeepsAllFitting(questions, currentQuestionIndex, answers, option);
      match q.kind
      case SingleChoice =>
        answers := answers[q.id := Single(option)];
        limitAlert := false;
      case MultipleChoice =>
        var current := CurrentSelection(q, answers);
        if option in current {
          answers := answers[q.id := Multiple(Without(current, option))];
          limitAlert := false;
        } else if Capped(q) && |current| >= q.maxSelections.value {
          limitAlert := true;
        } else {
          answers := answers[q.id := Multiple(current + [option])];
          limitAlert := false;
        }
    }

    /** `handlePrevious`: one question back, never below the first. */
    method HandlePrevious()
      requires Valid()
      modifies this`currentQuestionIndex
      ensures Valid()
      ensures currentQuestionIndex ==
        if old(currentQuestionIndex) > 0 then old(currentQuestionIndex) - 1 else old(currentQuestionIndex)
    {
      if currentQuestionIndex > 0 {
        currentQuestionIndex := currentQuestionIndex - 1;
      }
    }

    /** `handleComplete`: persist the answers and the flag; `completed` says
        whether `onComplete` was called (once). Answers and the index stay. */
    method HandleComplete(store: KeyValueStore) returns (completed: bool)
      requires Valid()
      modifies this`loading, store`items
      ensures Valid() && !loading
      ensures (completed, store.items) == SaveAnswers(old(store.items), store.faulty, answers)
    {
      loading := true;
      ghost var items0 := store.items;
      ghost var writes := [(AnswersKey, AnswerDoc(answers)), (CompletedKey, Text(CompletedFlag))];
      var ok := store.SetItem(AnswersKey, AnswerDoc(answers));
      if ok {
        ghost var items1 := store.items;
        assert writes[1..] == [writes[1]] && [writes[1]][1..] == [];
        ok := store.SetItem(CompletedKey, Text(CompletedFlag));
        assert WriteInOrder(items0, store.faulty, writes) == WriteInOrder(items1, store.faulty, [writes[1]]);
        if ok {
          assert WriteInOrder(items1, store.faulty, [writes[1]]) == WriteInOrder(store.items, store.faulty, []);
        }
      }
      assert SaveAnswers(items0, store.faulty, answers) == WriteInOrder(items0, store.faulty, writes);
      completed := ok;
      loading := false;
    }

    /** `handleNext`: advance, or complete on the last question. Answers never
        change. */
    method HandleNext(store: KeyValueStore) returns (completed: bool)
      requires Valid()
      modifies this`currentQuestionIndex, this`loading, store`items
      ensures Valid() && answers == old(answers)
      ensures old(currentQuestionIndex) < |questions| - 1 ==>
        && currentQuestionIndex == old(currentQuestionIndex) + 1
        && !completed && loading == old(loading) && store.items == old(store.items)
      ensures old(currentQuestionIndex) == |questions| - 1 ==>
        && currentQuestionIndex == old(currentQuestionIndex) && !loading
        && (completed, store.items) == SaveAnswers(old(store.items), store.faulty, answers)
    {
      if currentQuestionIndex < |questions| - 1 {
        currentQuestionIndex := currentQuestionIndex + 1;
        completed := false;
      } else {
        completed := HandleComplete(store);
      }
    }

    /** A press on Next/Complete: the button is disabled unless the current
        question can be left and nothing is being saved. */
    method PressNext(store: KeyValueStore) returns (completed: bool)
      requires Valid()
      modifies this`currentQuestionIndex, this`loading, store`items
      ensures Valid() && answers == old(answers)
      ensures !old(NextEnabled()) ==>
        && !completed && currentQuestionIndex == old(currentQuestionIndex)
        && loading == old(loading) && store.items == old(store.items)
      ensures old(NextEnabled()) && old(currentQuestionIndex) < |questions| - 1 ==>
        && currentQuestionIndex == old(currentQuestionIndex) + 1
        && !completed && loading == old(loading) && store.items == old(store.items)
      ensures old(NextEnabled()) && old(currentQuestionIndex) == |questions| - 1 ==>
        && currentQuestionIndex == old(currentQuestionIndex) && !loading
        && (completed, store.items) == SaveAnswers(old(store.items), store.faulty, answers)
    {
      if CanProceed(questions[currentQuestionIndex], answers) && !loading {
        completed := HandleNext(store);
      } else {
        completed := false;
      }
    }

    /** A press on Previous: the button is shown only after the first question
        and is disabled while saving. */
    method PressPrevious()
      requires Valid()
      modifies this`currentQuestionIndex
      ensures Valid()
      ensures currentQuestionIndex ==
        if old(currentQuestionIndex) > 0 && !loading then old(currentQuestionIndex) - 1
        else old(currentQuestionIndex)
    {
      if currentQuestionIndex > 0 && !loading {
        HandlePrevious();
      }
    }
  }

  /** A capped question with options A, B, C and at most two selections:
      A and B are taken and C hits the limit. */
  method SelectionLimitScenario()
  {
    var q := Question(5, "Preferred Trading Strategies", MultipleChoice, ["A", "B", "C"], true, Some(2));
    var screen := new OnboardingScreen([q]);
    var alert := screen.HandleAnswer("A");
    assert !alert && screen.answers[5] == Multiple(["A"]);
    alert := screen.HandleAnswer("B");
    assert !alert && screen.answers[5] == Multiple(["A", "B"]);
    alert := screen.HandleAnswer("C");
    assert alert && screen.answers[5] == Multiple(["A", "B"]);
  }

  /** The same question with A and B taken: dropping A makes room for C,
      which goes to the end. */
  method DeselectScenario()
  {
    var q := Question(5, "Preferred Trading Strategies", MultipleChoice, ["A", "B", "C"], true, Some(2));
    var screen := new OnboardingScreen([q]);
    var alert := screen.HandleAnswer("A");
    alert := screen.HandleAnswer("B");
    assert screen.answers[5] == Multiple(["A", "B"]);
    alert := screen.HandleAnswer("A");
    assert !alert && screen.answers[5] == Multiple(["B"]);
    alert := screen.HandleAnswer("C");
    assert !alert && screen.answers[5] == Multiple(["B", "C"]);
  }
}

=== FILE: session_gate.dfy ===
/** The root screen (app/index.tsx): picks the login, onboarding or dashboard
    view from the wallet SDK's user and the persisted onboarding flag, and
    wires the onboarding screen's completion callback. */
module SessionGate {
  import opened Answers
  import opened Storage
  import Onboarding
  import Dashboard

  datatype View = Loading | Login | OnboardingView | DashboardView

  /** The root's `if` chain: the spinner while loading, then login without a
      user, then onboarding unless the flag is `true`, then the dashboard. */
  function SelectView(loading: bool, userPresent: bool, onboardingCompleted: Option<bool>): (v: View)
    ensures v == Loading <==> loading
    ensures v == Login <==> !loading && !userPresent
    ensures v == OnboardingView <==> !loading && userPresent && onboardingCompleted != Some(true)
    ensures v == DashboardView <==> !loading && userPresent && onboardingCompleted == Some(true)
  {
    if loading then Loading
    else if !userPresent then Login
    else if onboardingCompleted != Some(true) then OnboardingView
    else DashboardView
  }

  datatype StatusCheck = StatusCheck(completed: bool, items: Items)

  /** `checkOnboardingStatus`. With a user both keys are removed (first the
      flag, then the answers; a failure stops the chain) and the flag is
      false. Without a user the flag is read: only the stored text `"true"`
      counts, and a failing read counts as false. */
  function CheckStatus(userPresent: bool, items: Items, faulty: set<string>): (r: StatusCheck)
    ensures userPresent ==> !r.completed
    ensures r.completed <==>
      !userPresent && CompletedKey !in faulty && Lookup(items, CompletedKey) == Some(Text(CompletedFlag))
    ensures !userPresent ==> r.items == items
    ensures userPresent && CompletedKey in faulty ==> r.items == items
    ensures userPresent && CompletedKey !in faulty ==> CompletedKey !in r.items
    ensures AnswersKey in faulty ==> Lookup(r.items, AnswersKey) == Lookup(items, AnswersKey)
    ensures userPresent && CompletedKey !in faulty && AnswersKey !in faulty ==>
      CompletedKey !in r.items && AnswersKey !in r.items
    ensures forall k :: k != AnswersKey && k != CompletedKey ==> Lookup(r.items, k) == Lookup(items, k)
  {
    if userPresent then
      var keys := [CompletedKey, AnswersKey];
      assert |keys| == 2 && keys[0] == CompletedKey && keys[1] == AnswersKey;
      assert forall k :: k in keys <==> k == AnswersKey || k == CompletedKey;
      StatusCheck(false, RemoveInOrder(items, faulty, keys).1)
    else if CompletedKey in faulty then StatusCheck(false, items)
    else StatusCheck(Lookup(items, CompletedKey) == Some(Text(CompletedFlag)), items)
  }

  /** After a login the status check always leads to the onboarding view.
      No stale answers load afterwards unless the flag removal fails while the
      answers key works: then the chain stops before the answers are removed. */
  lemma LoginForcesOnboarding(items: Items, faulty: set<string>, shown: Option<AnswerMap>)
    ensures SelectView(false, true, Some(CheckStatus(true, items, faulty).completed)) == OnboardingView
    ensures !(CompletedKey in faulty && AnswersKey !in faulty) ==>
      Dashboard.LoadedAnswers(CheckStatus(true, items, faulty).items, faulty, shown) == shown
  {
  }

  /** What `handleComplete` saved is what the dashboard loads. */
  lemma SavedAnswersLoadBack(items: Items, faulty: set<string>, answers: AnswerMap, shown: Option<AnswerMap>)
    requires Onboarding.SaveAnswers(items, faulty, answers).0
    ensures Dashboard.LoadedAnswers(Onboarding.SaveAnswers(items, faulty, answers).1, faulty, shown) == Some(answers)
  {
  }

  /** A completed onboarding survives a restart without a user: the saved
      flag reads back as completed. */
  lemma SavedFlagReadsBack(items: Items, faulty: set<string>, answers: AnswerMap)
    requires Onboarding.SaveAnswers(items, faulty, answers).0
    ensures CheckStatus(false, Onboarding.SaveAnswers(items, faulty, answers).1, faulty).completed
  {
  }

  /** "Reset Onboarding" followed by a restart without a user: once both
      removals succeed the flag reads back as not completed. */
  lemma ResetClearsFlag(items: Items, faulty: set<string>)
    requires Dashboard.ResetStore(items, faulty).0
    ensures !CheckStatus(false, Dashboard.ResetStore(items, faulty).1, faulty).completed
  {
  }

  /** The root component's state. */
  class Index {
    var onboardingCompleted: Option<bool>
    var loading: bool

    constructor ()
      ensures onboardingCompleted == None && loading
    {
      onboardingCompleted := None;
      loading := true;
    }

    /** The view the root renders for the current state. */
    function View(userPresent: bool): (v: View)
      reads this
      ensures v == Loading <==> loading
      ensures v == Login <==> !loading && !userPresent
      ensures v == OnboardingView <==> !loading && userPresent && onboardingCompleted != Some(true)
      ensures v == DashboardView <==> !loading && userPresent && onboardingCompleted == Some(true)
    {
      SelectView(loading, userPresent, onboardingCompleted)
    }

    /** `checkOnboardingStatus`, run when the user changes. */
    method CheckOnboardingStatus(userPresent: bool, store: KeyValueStore)
      modifies this, store`items
      ensures !loading
      ensures onboardingCompleted == Some(CheckStatus(userPresent, old(store.items), store.faulty).completed)
      ensures store.items == CheckStatus(userPresent, old(store.items), store.faulty).items
    {
      if userPresent {
        ghost var items0 := store.items;
        ghost var keys := [CompletedKey, AnswersKey];
        var ok := store.RemoveItem(CompletedKey);
        if ok {
          ghost var items1 := store.items;
          assert keys[1..] == [AnswersKey] && [AnswersKey][1..] == [];
          ok := store.RemoveItem(AnswersKey);
          assert RemoveInOrder(items0, store.faulty, keys) == RemoveInOrder(items1, store.faulty, [AnswersKey]);
          if ok {
            assert RemoveInOrder(items1, store.faulty, [AnswersKey]) == RemoveInOrder(store.items, store.faulty, []);
          }
        }
        onboardingCompleted := Some(false);
      } else {
        var r := store.GetItem(CompletedKey);
        match r
        case Read(v) => onboardingCompleted := Some(v == Some(Text(CompletedFlag)));
        case ReadFailed(_) => onboardingCompleted := Some(false);
      }
      loading := false;
    }

    /** `handleOnboardingComplete`: only the flag changes. */
    method HandleOnboardingComplete()
      modifies this`onboardingCompleted
      ensures onboardingCompleted == Some(true)
      ensures !loading ==> View(true) == DashboardView
    {
      onboardingCompleted := Some(true);
    }
  }

  /** A press on Next/Complete in the onboarding screen with
      `onComplete={handleOnboardingComplete}`. Once the answers are saved the
      root shows the dashboard to the signed-in user; otherwise the root is
      untouched. */
  method PressNextWithCallback(root: Index, screen: Onboarding.OnboardingScreen, store: KeyValueStore)
    returns (completed: bool)
    requires screen.Valid() && !root.loading
    modifies root`onboardingCompleted, screen`currentQuestionIndex, screen`loading, store`items
    ensures screen.Valid() && screen.answers == old(screen.answers)
    ensures !old(screen.loading) ==> !screen.loading
    ensures screen.currentQuestionIndex ==
      if old(screen.NextEnabled()) && old(screen.currentQuestionIndex) < |screen.questions| - 1
      then old(screen.currentQuestionIndex) + 1 else old(screen.currentQuestionIndex)
    ensures completed <==>
      old(screen.NextEnabled()) && old(screen.currentQuestionIndex) == |screen.questions| - 1 &&
      AnswersKey !in store.faulty && CompletedKey !in store.faulty
    ensures completed ==> root.View(true) == DashboardView
    ensures completed ==> Dashboard.LoadedAnswers(store.items, store.faulty, None) == Some(screen.answers)
    ensures !completed ==> root.onboardingCompleted == old(root.onboardingCompleted)
  {
    completed := screen.PressNext(store);
    if completed {
      root.HandleOnboardingComplete();
    }
  }

  /** A fresh login on a device that finished onboarding before: the root
      clears the old run, the first (required) question blocks Next until it
      is answered, completing the questionnaire shows the dashboard, and the
      dashboard loads the new answers. */
  method LoginToDashboardScenario(previous: AnswerMap)
  {
    var store := new KeyValueStore(map[CompletedKey := Text(CompletedFlag), AnswersKey := AnswerDoc(previous)], {});
    var root := new Index();
    root.CheckOnboardingStatus(true, store);
    assert root.View(true) == OnboardingView;
    assert AnswersKey !in store.items;

    var q1 := Onboarding.Question(1, "Trading Experience Level", Onboarding.SingleChoice,
      ["Beginner", "Intermediate", "Expert"], true, None);
    var q2 := Onboarding.Question(2, "Primary Investment Goal", Onboarding.SingleChoice,
      ["Growth", "Income"], false, None);
    var screen := new Onboarding.OnboardingScreen([q1, q2]);
    var done := PressNextWithCallback(root, screen, store);
    assert !done && screen.currentQuestionIndex == 0;

    var alert := screen.HandleAnswer("Beginner");
    done := PressNextWithCallback(root, screen, store);
    assert !done && screen.currentQuestionIndex == 1;
    done := PressNextWithCallback(root, screen, store);
    assert done && root.View(true) == DashboardView;

    var dashboard := new Dashboard.UserScreen();
    dashboard.LoadOnboardingAnswers(store);
    assert dashboard.onboardingAnswers == Some(map[1 := Single("Beginner")]);
  }
}

=== FILE: storage.dfy ===
/** The device's persistent key-value store (AsyncStorage) as the app uses it:
    two keys, string flags, and the stored answer document. The store is an
    external collaborator; what is modelled is its observable contract. */
module Storage {
  import opened Answers

  const CompletedKey := "onboardingCompleted"
  const AnswersKey := "onboardingAnswers"

  /** The text `"true"` marks onboarding as done. */
  const CompletedFlag := "true"

  /** A stored value: plain text, or the serialised answer map. The
      serialisation is abstracted by storing the map itself. */
  datatype StoredValue = Text(text: string) | AnswerDoc(doc: AnswerMap)

  type Items = map<string, StoredValue>

  datatype StorageError = StorageError(key: string)

  /** Outcome of a read: the value (absent when the key is unset) or an I/O error. */
  datatype ReadResult = Read(value: Option<StoredValue>) | ReadFailed(error: StorageError)

  /** The position of the first key whose I/O fails, or `|keys|` when every
      key works: where a chain of awaited calls inside one `try` stops. */
  function FirstFailure(keys: seq<string>, faulty: set<string>): (f: nat)
    ensures f <= |keys|
    ensures forall i :: 0 <= i < f ==> keys[i] !in faulty
    ensures f < |keys| ==> keys[f] in faulty
    decreases keys
  {
    if keys == [] || keys[0] in faulty then 0
    else 1 + FirstFailure(keys[1..], faulty)
  }

  /** Awaited removals inside one `try`: the first failing removal throws, so
      the keys before it are gone, it and the keys after it are untouched. */
  function RemoveInOrder(items: Items, faulty: set<string>, keys: seq<string>): (r: (bool, Items))
    ensures r.0 <==> forall i :: 0 <= i < |keys| ==> keys[i] !in faulty
    ensures r.0 ==> forall i :: 0 <= i < |keys| ==> keys[i] !in r.1
    ensures forall i :: 0 <= i < FirstFailure(keys, faulty) ==> keys[i] !in r.1
    ensures NoDuplicates(keys) ==> forall i :: FirstFailure(keys, faulty) <= i < |keys| ==>
      Lookup(r.1, keys[i]) == Lookup(items, keys[i])
    ensures forall k :: k !in keys ==> Lookup(r.1, k) == Lookup(items, k)
    ensures forall k :: k in keys ==> k in r.1 ==> k in items && r.1[k] == items[k]
    ensures forall k :: k in faulty ==> Lookup(r.1, k) == Lookup(items, k)
    decreases keys
  {
    if keys == [] then (true, items)
    else if keys[0] in faulty then (false, items)
    else
      var r := RemoveInOrder(items - {keys[0]}, faulty, keys[1..]);
      assert forall i :: 1 <= i < |keys| ==> keys[i] == keys[1..][i - 1];
      assert forall k :: k in keys[1..] ==> k in keys;
      assert forall k :: k in keys && k != keys[0] ==> k in keys[1..];
      if NoDuplicates(keys) then
        NoDuplicatesTail(keys);
        r
      else
        r
  }

  predicate DistinctKeys(writes: seq<(string, StoredValue)>)
  {
    forall i, j :: 0 <= i < j < |writes| ==> writes[i].0 != writes[j].0
  }

  /** Some write of the chain is to key `k`. */
  predicate Writes(writes: seq<(string, StoredValue)>, k: string)
  {
    exists i :: 0 <= i < |writes| && writes[i].0 == k
  }

  /** Some write up to and including position `i` fails, so the chain has
      stopped by then. */
  predicate StoppedBy(writes: seq<(string, StoredValue)>, faulty: set<string>, i: nat)
  {
    exists j :: 0 <= j <= i && j < |writes| && writes[j].0 in faulty
  }

  /** Once the first write works, the chain stops by position `i` exactly
      when the rest of the chain stops by position `i - 1`. */
  lemma StoppedByShift(writes: seq<(string, StoredValue)>, faulty: set<string>)
    requires writes != [] && writes[0].0 !in faulty
    ensures !StoppedBy(writes, faulty, 0)
    ensures forall i :: 1 <= i < |writes| ==> (StoppedBy(writes, faulty, i) <==> StoppedBy(writes[1..], faulty, i - 1))
  {
    forall i | 1 <= i < |writes|
      ensures StoppedBy(writes, faulty, i) <==> StoppedBy(writes[1..], faulty, i - 1)
    {
      if StoppedBy(writes, faulty, i) {
        var j :| 0 <= j <= i && j < |writes| && writes[j].0 in faulty;
        assert writes[1..][j - 1] == writes[j];
      }
      if StoppedBy(writes[1..], faulty, i - 1) {
        var j :| 0 <= j <= i - 1 && j < |writes[1..]| && writes[1..][j].0 in faulty;
        assert writes[j + 1] == writes[1..][j];
      }
    }
  }

  /** Awaited writes inside one `try`: each write lands until the first one
      that fails; that one and the ones after it change nothing. */
  function WriteInOrder(items: Items, faulty: set<string>, writes: seq<(string, StoredValue)>): (r: (bool, Items))
    ensures r.0 <==> forall i :: 0 <= i < |writes| ==> writes[i].0 !in faulty
    ensures forall k :: !Writes(writes, k) ==> Lookup(r.1, k) == Lookup(items, k)
    ensures forall k :: k in faulty ==> Lookup(r.1, k) == Lookup(items, k)
    ensures r.0 && DistinctKeys(writes) ==> forall i :: 0 <= i < |writes| ==> Lookup(r.1, writes[i].0) == Some(writes[i].1)
    ensures DistinctKeys(writes) ==> forall i :: 0 <= i < |writes| ==>
      Lookup(r.1, writes[i].0) == if StoppedBy(writes, faulty, i) then Lookup(items, writes[i].0) else Some(writes[i].1)
    decreases writes
  {
    if writes == [] then (true, items)
    else if writes[0].0 in faulty then (false, items)
    else
      var r := WriteInOrder(items[writes[0].0 := writes[0].1], faulty, writes[1..]);
      WriteStepOthers(items, faulty, writes, r);
      WriteStepWritten(items, faulty, writes, r);
      r
  }

  /** One step of `WriteInOrder`, for the keys it does not write: when the
      first write works and the rest of the chain ends in `r` as promised,
      the whole chain does too. */
  lemma WriteStepOthers(items: Items, faulty: set<string>, writes: seq<(string, StoredValue)>, r: (bool, Items))
    requires writes != [] && writes[0].0 !in faulty
    requires var rest := writes[1..];
      && (r.0 <==> forall i :: 0 <= i < |rest| ==> rest[i].0 !in faulty)
      && (forall k :: !Writes(rest, k) ==> Lookup(r.1, k) == Lookup(items[writes[0].0 := writes[0].1], k))
      && (forall k :: k in faulty ==> Lookup(r.1, k) == Lookup(items[writes[0].0 := writes[0].1], k))
    ensures r.0 <==> forall i :: 0 <= i < |writes| ==> writes[i].0 !in faulty
    ensures forall k :: !Writes(writes, k) ==> Lookup(r.1, k) == Lookup(items, k)
    ensures forall k :: k in faulty ==> Lookup(r.1, k) == Lookup(items, k)
  {
    var rest := writes[1..];
    assert forall i :: 1 <= i < |writes| ==> writes[i] == rest[i - 1];
    assert forall i :: 0 <= i < |rest| ==> rest[i] == writes[i + 1];
    assert forall k :: Writes(writes, k) <==> writes[0].0 == k || Writes(rest, k);
  }

  /** One step of `WriteInOrder`, for the keys it writes: with distinct keys,
      each write before the first failure has landed and the others have not. */
  lemma WriteStepWritten(items: Items, faulty: set<string>, writes: seq<(string, StoredValue)>, r: (bool, Items))
    requires writes != [] && writes[0].0 !in faulty
    requires var items' := items[writes[0].0 := writes[0].1];
      var rest := writes[1..];
      && (r.0 <==> forall i :: 0 <= i < |writes| ==> writes[i].0 !in faulty)
      && (forall k :: !Writes(rest, k) ==> Lookup(r.1, k) == Lookup(items', k))
      && (DistinctKeys(rest) ==> forall i :: 0 <= i < |rest| ==>
        Lookup(r.1, rest[i].0) == if StoppedBy(rest, faulty, i) then Lookup(items', rest[i].0) else Some(rest[i].1))
    ensures DistinctKeys(writes) ==> forall i :: 0 <= i < |writes| ==>
      Lookup(r.1, writes[i].0) == if StoppedBy(writes, faulty, i) then Lookup(items, writes[i].0) else Some(writes[i].1)
    ensures r.0 && DistinctKeys(writes) ==> forall i :: 0 <= i < |writes| ==> Lookup(r.1, writes[i].0) == Some(writes[i].1)
  {
    if DistinctKeys(writes) {
      WrittenBeforeFailure(items, faulty, writes, r.1);
      if r.0 {
        NeverStopped(writes, faulty);
      }
    }
  }

  /** The core of `WriteStepWritten`, for distinct keys. */
  lemma WrittenBeforeFailure(items: Items, faulty: set<string>, writes: seq<(string, StoredValue)>, after: Items)
    requires writes != [] && writes[0].0 !in faulty && DistinctKeys(writes)
    requires var items' := items[writes[0].0 := writes[0].1];
      var rest := writes[1..];
      && (forall k :: !Writes(rest, k) ==> Lookup(after, k) == Lookup(items', k))
      && (DistinctKeys(rest) ==> forall i :: 0 <= i < |rest| ==>
        Lookup(after, rest[i].0) == if StoppedBy(rest, faulty, i) then Lookup(items', rest[i].0) else Some(rest[i].1))
    ensures forall i :: 0 <= i < |writes| ==>
      Lookup(after, writes[i].0) == if StoppedBy(writes, faulty, i) then Lookup(items, writes[i].0) else Some(writes[i].1)
  {
    var rest := writes[1..];
    assert DistinctKeys(rest);
    assert !Writes(rest, writes[0].0) by {
      assert forall i :: 0 <= i < |rest| ==> rest[i] == writes[i + 1];
    }
    StoppedByShift(writes, faulty);
    forall i | 1 <= i < |writes|
      ensures Lookup(after, writes[i].0) ==
        if StoppedBy(writes, faulty, i) then Lookup(items, writes[i].0) else Some(writes[i].1)
    {
      assert writes[i] == rest[i - 1];
    }
  }

  /** With every write working, no position of the chain has stopped. */
  lemma NeverStopped(writes: seq<(string, StoredValue)>, faulty: set<string>)
    requires forall i :: 0 <= i < |writes| ==> writes[i].0 !in faulty
    ensures forall i :: 0 <= i < |writes| ==> !StoppedBy(writes, faulty, i)
  {
  }

  /** AsyncStorage. `faulty` is the set of keys whose reads and writes fail
      with an I/O error on this device; the app never changes it. */
  class KeyValueStore {
    var items: Items
    var faulty: set<string>

    constructor (initial: Items, failing: set<string>)
      ensures items == initial && faulty == failing
    {
      items := initial;
      faulty := failing;
    }

    /** `getItem`: the stored value, absent for an unset key, or an error. */
    method GetItem(key: string) returns (r: ReadResult)
      ensures key in faulty ==> r == ReadFailed(StorageError(key))
      ensures key !in faulty ==> r == Read(Lookup(items, key))
    {
      if key in faulty {
        r := ReadFailed(StorageError(key));
      } else {
        r := Read(Lookup(items, key));
      }
    }

    /** `setItem`: stores the value under the key, or fails and stores nothing. */
    method SetItem(key: string, value: StoredValue) returns (ok: bool)
      modifies this`items
      ensures ok <==> key !in faulty
      ensures items == if ok then old(items)[key := value] else old(items)
    {
      ok := key !in faulty;
      if ok {
        items := items[key := value];
      }
    }

    /** `removeItem`: drops the key (a no-op when it is unset), or fails and
        drops nothing. */
    method RemoveItem(key: string) returns (ok: bool)
      modifies this`items
      ensures ok <==> key !in faulty
      ensures items == if ok then old(items) - {key} else old(items)
    {
      ok := key !in faulty;
      if ok {
        items := items - {key};
      }
    }
  }
}

=== FILE: user_screen.dfy ===
/** The dashboard screen (components/UserScreen.tsx): the saved trading
    profile, the wallet list and the chain switch. Wallet and chain operations
    are calls into the wallet SDK; only the screen's own logic is here. */
module Dashboard {
  import opened Answers
  import opened Storage
  import opened Numerals

  /** Base Sepolia, the chain the screen starts on. */
  const BaseSepoliaChainId := "84532"
  /** Sepolia, the other chain the switch offers. */
  const SepoliaChainId := "11155111"

  // ---------------------------------------------------------------- profile

  /** The titles the profile shows for question ids 1 to 6. */
  const QuestionTitles: seq<string> := [
    "Trading Experience Level",
    "Primary Investment Goal",
    "Daily Trading Time",
    "Risk Tolerance",
    "Preferred Trading Strategies",
    "Preferred Trading Market"
  ]

  const FallbackPrefix := "Question "

  /** `getQuestionText(questionId)`: the fixed title of ids 1 to 6, otherwise
      the label "Question <id>". */
  function GetQuestionText(questionId: int): (title: string)
    ensures 1 <= questionId <= 6 ==> title == QuestionTitles[questionId - 1]
    ensures !(1 <= questionId <= 6) ==>
      |title| > |FallbackPrefix| && title[..|FallbackPrefix|] == FallbackPrefix &&
      ParseDecimal(title[|FallbackPrefix|..]) == questionId
    ensures !(1 <= questionId <= 6) ==> title[|FallbackPrefix|..] == DecimalString(questionId)
  {
    assert (FallbackPrefix + DecimalString(questionId))[|FallbackPrefix|..] == DecimalString(questionId);
    DecimalRoundTrip(questionId);
    if 1 <= questionId <= 6 then QuestionTitles[questionId - 1]
    else FallbackPrefix + DecimalString(questionId)
  }

  /** The six fixed titles are told apart by their length and first letter,
      and none starts with the fallback's 'Q'. */
  lemma FixedTitlesDistinct()
    ensures forall k :: 0 <= k < |QuestionTitles| ==> |QuestionTitles[k]| > 0 && QuestionTitles[k][0] != 'Q'
    ensures forall i, j :: 0 <= i < j < |QuestionTitles| ==> QuestionTitles[i] != QuestionTitles[j]
  {
    var lengths := [24, 23, 18, 14, 28, 24];
    assert forall k :: 0 <= k < |QuestionTitles| ==> |QuestionTitles[k]| == lengths[k];
    assert QuestionTitles[0][0] != QuestionTitles[5][0];
  }

  /** Different question ids never share a title, so the profile's rows can
      be told apart. */
  lemma QuestionTextInjective(a: int, b: int)
    requires a != b
    ensures GetQuestionText(a) != GetQuestionText(b)
  {
    FixedTitlesDistinct();
    var ta, tb := GetQuestionText(a), GetQuestionText(b);
    if !(1 <= a <= 6) && !(1 <= b <= 6) {
      // The suffixes read back as a and b.
      assert ParseDecimal(ta[|FallbackPrefix|..]) != ParseDecimal(tb[|FallbackPrefix|..]);
    } else if 1 <= a <= 6 && 1 <= b <= 6 {
      assert ta == QuestionTitles[a - 1] && tb == QuestionTitles[b - 1];
    } else if 1 <= a <= 6 {
      assert tb[0] == tb[..|FallbackPrefix|][0] == 'Q';
    } else {
      assert ta[0] == ta[..|FallbackPrefix|][0] == 'Q';
    }
  }

  predicate EndsWith(s: string, suffix: string)
  {
    |suffix| <= |s| && s[|s| - |suffix|..] == suffix
  }

  /** The combined length of the elements. */
  function TotalLength(xs: seq<string>): nat
  {
    if xs == [] then 0 else |xs[0]| + TotalLength(xs[1..])
  }

  /** `array.join(', ')`: the text starts with the first element and ends
      with the last. */
  function JoinWithComma(xs: seq<string>): (text: string)
    ensures |xs| == 0 ==> text == ""
    ensures |xs| > 0 ==> xs[0] <= text
    ensures |xs| > 0 ==> EndsWith(text, xs[|xs| - 1])
    ensures |xs| > 0 ==> |text| == TotalLength(xs) + 2 * (|xs| - 1)
  {
    if |xs| == 0 then ""
    else if |xs| == 1 then xs[0]
    else xs[0] + ", " + JoinWithComma(xs[1..])
  }

  /** The text under a question in the profile: a multiple-choice answer is
      joined with ", ", a single-choice answer is shown as it is. */
  function DisplayAnswer(a: Answer): (text: string)
    ensures a.Single? ==> text == a.choice
    ensures a.Multiple? && |a.selection| == 1 ==> text == a.selection[0]
    ensures a.Multiple? ==> text == JoinWithComma(a.selection)
  {
    match a
    case Single(s) => s
    case Multiple(sel) => JoinWithComma(sel)
  }

  /** Reads a comma-separated list back: cuts at each ',' and drops one
      space after it. */
  function SplitAtCommas(s: string): (parts: seq<string>)
    ensures |parts| > 0
    decreases |s|
  {
    if |s| == 0 then [""]
    else if s[0] == ',' then [""] + SplitAtCommas(if |s| > 1 && s[1] == ' ' then s[2..] else s[1..])
    else
      var rest := SplitAtCommas(s[1..]);
      [[s[0]] + rest[0]] + rest[1..]
  }

  predicate CommaFree(x: string)
  {
    ',' !in x
  }

  lemma {:induction false} SplitAfterCommaFree(a: string, t: string)
    requires CommaFree(a)
    ensures SplitAtCommas(a + t) == [a + SplitAtCommas(t)[0]] + SplitAtCommas(t)[1..]
    decreases |a|
  {
    if |a| > 0 {
      assert (a + t)[0] == a[0] && (a + t)[1..] == a[1..] + t;
      SplitAfterCommaFree(a[1..], t);
      assert [a[0]] + (a[1..] + SplitAtCommas(t)[0]) == a + SplitAtCommas(t)[0];
    } else {
      var parts := SplitAtCommas(t);
      assert a + t == t && a + parts[0] == parts[0];
      assert [parts[0]] + parts[1..] == parts;
    }
  }

  /** The joined text of options that contain no comma splits back into the
      same options: the profile line loses nothing. */
  lemma {:induction false} JoinSplitRoundTrip(xs: seq<string>)
    requires |xs| > 0 && forall i :: 0 <= i < |xs| ==> CommaFree(xs[i])
    ensures SplitAtCommas(JoinWithComma(xs)) == xs
    decreases |xs|
  {
    if |xs| == 1 {
      SplitAfterCommaFree(xs[0], "");
      assert xs[0] + "" == xs[0];
    } else {
      var rest := JoinWithComma(xs[1..]);
      JoinSplitRoundTrip(xs[1..]);
      assert JoinWithComma(xs) == xs[0] + (", " + rest);
      SplitAfterCommaFree(xs[0], ", " + rest);
      assert (", " + rest)[2..] == rest;
      assert SplitAtCommas(", " + rest) == [""] + xs[1..];
      assert xs[0] + "" == xs[0];
    }
  }

  /** A displayed selection of comma-free options names exactly the selected
      options, in order. */
  lemma DisplayedSelectionSplitsBack(a: Answer)
    requires a.Multiple? && |a.selection| > 0
    requires forall i :: 0 <= i < |a.selection| ==> CommaFree(a.selection[i])
    ensures SplitAtCommas(DisplayAnswer(a)) == a.selection
  {
    JoinSplitRoundTrip(a.selection);
  }

  /** `loadOnboardingAnswers`: a stored answer document replaces what is
      shown; an unset key or a failing read leaves it as it was. */
  function LoadedAnswers(items: Items, faulty: set<string>, shown: Option<AnswerMap>): (r: Option<AnswerMap>)
    ensures AnswersKey in faulty ==> r == shown
    ensures AnswersKey !in faulty && AnswersKey !in items ==> r == shown
    ensures AnswersKey !in faulty && AnswersKey in items && items[AnswersKey].AnswerDoc? ==>
      r == Some(items[AnswersKey].doc)
    ensures r != shown ==> r.Some? && AnswersKey in items && items[AnswersKey] == AnswerDoc(r.value)
  {
    if AnswersKey in faulty then shown
    else match Lookup<string, StoredValue>(items, AnswersKey)
      case None => shown
      case Some(AnswerDoc(doc)) => Some(doc)
      case Some(Text(_)) => shown
  }

  /** The "Reset Onboarding" button's two awaited removals. */
  function ResetStore(items: Items, faulty: set<string>): (r: (bool, Items))
    ensures r.0 <==> AnswersKey !in faulty && CompletedKey !in faulty
    ensures r.0 ==> AnswersKey !in r.1 && CompletedKey !in r.1
    ensures AnswersKey in faulty ==> r.1 == items
    ensures AnswersKey !in faulty ==> AnswersKey !in r.1
    ensures CompletedKey in faulty ==> Lookup(r.1, CompletedKey) == Lookup(items, CompletedKey)
    ensures forall k :: k != AnswersKey && k != CompletedKey ==> Lookup(r.1, k) == Lookup(items, k)
  {
    var keys := [AnswersKey, CompletedKey];
    assert |keys| == 2 && keys[0] == AnswersKey && keys[1] == CompletedKey;
    assert forall k :: k in keys <==> k == AnswersKey || k == CompletedKey;
    RemoveInOrder(items, faulty, keys)
  }

  // ----------------------------------------------------------------- chains

  /** The chain a press on the switch button moves to. */
  function NextChain(chainId: string): (target: string)
    ensures target == BaseSepoliaChainId || target == SepoliaChainId
    ensures target != chainId
    ensures target == BaseSepoliaChainId <==> chainId == SepoliaChainId
  {
    if chainId == SepoliaChainId then BaseSepoliaChainId else SepoliaChainId
  }

  /** Switching twice from either known chain returns to it. */
  lemma SwitchTwiceReturns(chainId: string)
    requires chainId == BaseSepoliaChainId || chainId == SepoliaChainId
    ensures NextChain(NextChain(chainId)) == chainId
  {
  }

  const SwitchPrefix := "Switch to "

  /** The switch button's title names the other known chain. */
  function SwitchButtonTitle(chainId: string): (title: string)
    ensures |title| > |SwitchPrefix| && title[..|SwitchPrefix|] == SwitchPrefix
    ensures title[|SwitchPrefix|..] == BaseSepoliaChainId || title[|SwitchPrefix|..] == SepoliaChainId
    ensures title[|SwitchPrefix|..] != chainId
  {
    assert (SwitchPrefix + NextChain(chainId))[|SwitchPrefix|..] == NextChain(chainId);
    SwitchPrefix + NextChain(chainId)
  }

  /** The `chainId` parameter of `wallet_switchEthereumChain`:
      `"0x" + Number(id).toString(16)`. */
  function ChainIdHex(id: string): (hex: string)
    requires AllDigits(id, 10)
    ensures |hex| > 2 && hex[..2] == "0x" && AllDigits(hex[2..], 16)
    ensures FromDigits(hex[2..], 16) == FromDigits(id, 10)
    ensures hex[2] == '0' ==> FromDigits(id, 10) == 0
    ensures hex[2] == '0' ==> hex == "0x0"
  {
    var n := FromDigits(id, 10);
    FromToDigits(n, 16);
    assert ("0x" + ToDigits(n, 16))[2..] == ToDigits(n, 16);
    "0x" + ToDigits(n, 16)
  }

  lemma KnownChainHex()
    ensures ChainIdHex(BaseSepoliaChainId) == "0x14a34"
    ensures ChainIdHex(SepoliaChainId) == "0xaa36a7"
  {
    var base := BaseSepoliaChainId;
    assert FromDigits(base[..1], 10) == 8;
    assert base[..2][..1] == base[..1];
    assert FromDigits(base[..2], 10) == 84;
    assert base[..3][..2] == base[..2];
    assert FromDigits(base[..3], 10) == 845;
    assert base[..4][..3] == base[..3];
    assert FromDigits(base[..4], 10) == 8453;
    assert FromDigits(base, 10) == 84532;
    assert ToDigits(1, 16) == "1";
    assert ToDigits(20, 16) == "14";
    assert ToDigits(330, 16) == "14a";
    assert ToDigits(5283, 16) == "14a3";
    assert ToDigits(84532, 16) == "14a34";
    var sep := SepoliaChainId;
    assert FromDigits(sep[..1], 10) == 1;
    assert sep[..2][..1] == sep[..1];
    assert FromDigits(sep[..2], 10) == 11;
    assert sep[..3][..2] == sep[..2];
    assert FromDigits(sep[..3], 10) == 111;
    assert sep[..4][..3] == sep[..3];
    assert FromDigits(sep[..4], 10) == 1115;
    assert sep[..5][..4] == sep[..4];
    assert FromDigits(sep[..5], 10) == 11155;
    assert sep[..6][..5] == sep[..5];
    assert FromDigits(sep[..6], 10) == 111551;
    assert sep[..7][..6] == sep[..6];
    assert FromDigits(sep[..7], 10) == 1115511;
    assert FromDigits(sep, 10) == 11155111;
    assert ToDigits(10, 16) == "a";
    assert ToDigits(170, 16) == "aa";
    assert ToDigits(2723, 16) == "aa3";
    assert ToDigits(43574, 16) == "aa36";
    assert ToDigits(697194, 16) == "aa36a";
    assert ToDigits(11155111, 16) == "aa36a7";
  }

  // ---------------------------------------------------------------- wallets

  /** `` `${address.slice(0, 6)}...${address.slice(-4)}` ``: `slice(-4)` of a
      string shorter than four characters is the whole string. */
  function AbbreviateAddress(address: string): (caption: string)
    ensures var head := if |address| < 6 then |address| else 6;
      var tail := if |address| < 4 then |address| else 4;
      && |caption| == head + 3 + tail
      && caption[..head] == address[..head]
      && caption[head..head + 3] == "..."
      && caption[head + 3..] == address[|address| - tail..]
  {
    var head := if |address| < 6 then |address| else 6;
    var tail := if |address| < 4 then 0 else |address| - 4;
    address[..head] + "..." + address[tail..]
  }

  /** A long address keeps its first six and last four characters. */
  lemma AbbreviationOfFullAddress(address: string)
    requires |address| >= 10
    ensures |AbbreviateAddress(address)| == 13
    ensures AbbreviateAddress(address)[..6] == address[..6]
    ensures AbbreviateAddress(address)[9..] == address[|address| - 4..]
  {
  }

  /** A wallet's button is disabled when it is the active wallet. */
  function WalletButtonDisabled(activeAddress: Option<string>, address: string): (disabled: bool)
    ensures activeAddress.None? ==> !disabled
    ensures disabled <==> activeAddress.Some? && activeAddress.value == address
  {
    activeAddress == Some(address)
  }

  function DisabledCount(activeAddress: Option<string>, addresses: seq<string>): nat
  {
    if addresses == [] then 0
    else
      var here := if WalletButtonDisabled(activeAddress, addresses[0]) then 1 else 0;
      here + DisabledCount(activeAddress, addresses[1..])
  }

  /** With distinct addresses exactly one button is disabled when the active
      wallet is listed, and none otherwise. */
  lemma {:induction false} OneDisabledButton(activeAddress: Option<string>, addresses: seq<string>)
    requires NoDuplicates(addresses)
    ensures DisabledCount(activeAddress, addresses) ==
      if activeAddress.Some? && activeAddress.value in addresses then 1 else 0
  {
    if addresses != [] {
      var tail := addresses[1..];
      assert NoDuplicates(tail) by {
        forall i, j | 0 <= i < j < |tail| ensures tail[i] != tail[j] {
          assert tail[i] == addresses[i + 1] && tail[j] == addresses[j + 1];
        }
      }
      assert addresses[0] !in tail by {
        forall j | 0 <= j < |tail| ensures tail[j] != addresses[0] {
          assert tail[j] == addresses[j + 1];
        }
      }
      OneDisabledButton(activeAddress, tail);
      assert forall x :: x in addresses <==> x == addresses[0] || x in tail;
    }
  }

  // ----------------------------------------------------------------- screen

  /** The dashboard's component state. */
  class UserScreen {
    var chainId: string
    var onboardingAnswers: Option<AnswerMap>

    constructor ()
      ensures chainId == BaseSepoliaChainId && onboardingAnswers == None
    {
      chainId := BaseSepoliaChainId;
      onboardingAnswers := None;
    }

    /** `loadOnboardingAnswers`, run when the screen mounts. */
    method LoadOnboardingAnswers(store: KeyValueStore)
      modifies this`onboardingAnswers
      ensures onboardingAnswers == LoadedAnswers(store.items, store.faulty, old(onboardingAnswers))
    {
      var r := store.GetItem(AnswersKey);
      match r
      case ReadFailed(_) =>
      case Read(v) =>
        match v
        case None =>
        case Some(Text(_)) =>
        case Some(AnswerDoc(doc)) => onboardingAnswers := Some(doc);
    }

    /** The "Reset Onboarding" button: both keys are removed, and the profile
        is cleared only when both removals succeeded. */
    method ResetOnboarding(store: KeyValueStore) returns (ok: bool)
      modifies this`onboardingAnswers, store`items
      ensures (ok, store.items) == ResetStore(old(store.items), store.faulty)
      ensures onboardingAnswers == if ok then None else old(onboardingAnswers)
    {
      ghost var items0 := store.items;
      ghost var keys := [AnswersKey, CompletedKey];
      ok := store.RemoveItem(AnswersKey);
      if ok {
        ghost var items1 := store.items;
        assert keys[1..] == [CompletedKey] && [CompletedKey][1..] == [];
        ok := store.RemoveItem(CompletedKey);
        assert RemoveInOrder(items0, store.faulty, keys) == RemoveInOrder(items1, store.faulty, [CompletedKey]);
        if ok {
          assert RemoveInOrder(items1, store.faulty, [CompletedKey]) == RemoveInOrder(store.items, store.faulty, []);
        }
      }
      assert ResetStore(items0, store.faulty) == RemoveInOrder(items0, store.faulty, keys);
      if ok {
        onboardingAnswers := None;
      }
    }

    /** A press on the switch button: the screen moves to the chain its title
        named. The wallet SDK's switch request is not part of this model. */
    method PressSwitchChain() returns (target: string)
      modifies this`chainId
      ensures target == NextChain(old(chainId)) && chainId == target
      ensures old(SwitchButtonTitle(chainId)) == SwitchPrefix + target
    {
      target := NextChain(chainId);
      chainId := target;
    }
  }
}
